=== FILE: README.md ===
# OpenCL command queues and their owning context (ANGLE `cl` front end)

This project models the host-side object model that ANGLE's OpenCL front end
keeps for command queues and for the context that owns them.

* A **context** has a fixed list of devices and owns four lists of child
  objects: command queues, memory objects, samplers and programs. Its
  membership tests and capability tests are `find_if` scans over those lists.
* A **command queue** belongs to one context and one device. It keeps its
  creation property array, its property bitfield, an optional size and a
  reference count. It answers `clGetCommandQueueInfo`-style queries through
  the size-probe / copy protocol. It can toggle property bits once the
  backend accepts the change. A queue built by the with-properties
  constructor with the `CL_QUEUE_ON_DEVICE_DEFAULT` bit registers itself as
  its device's default queue; the legacy constructor never touches that
  slot. On destruction a queue clears the slot if it still names that queue.
* A command-queue **handle is valid** when some context of some platform owns it.

Pointers become handles: a live object's identity is a non-zero `nat`
below 2^64 (a 64-bit host). The lookups (`HasCommandQueue`, `IsValid`, ...)
take any pointer value, null (0) included, as the caller can pass one. Backend calls become status inputs. The device → default-queue
back-reference becomes a map from device handle to an optional queue handle,
threaded through every operation that touches it. Query results are byte
strings in little-endian order, and a round-trip lemma
(`Bytes.DecodeEncode`, `Bytes.DecodeEncodeWords`) ties each attribute to the
field it came from.

Modules:
- `Wrappers` and `ClTypes` (wrappers.dfy, cl_types.dfy) hold the value types.
- `Search` (search.dfy) models `find_if` and `erase`.
- `Bytes` (bytes.dfy) models the byte encodings.
- `RefCounting` (refcount.dfy) models the reference counter.
- `Objects` (objects.dfy) holds the entities.
- `Contexts` (context.dfy) models the context header.
- `CommandQueues` (command_queue.dfy) models the command-queue file.
- `Registry` (registry.dfy) models platform-wide validity, creation and
  release over a whole state. It also proves that these operations preserve
  four invariants:
  - queue identities are unique;
  - every default-queue slot names a live queue on that device;
  - every live queue holds at least one reference and records as its
    context the context that owns it;
  - no two contexts share an identity.

## Model

| member | source | states |
|---|---|---|
| Contexts.HasDevice | src/libANGLE/CLContext.h:174-179 | for any pointer value, null included: true exactly when some device of the context has that identity |
| Contexts.SupportsImages | src/libANGLE/CLContext.h:186-191 | true exactly when some device reports image support equal to CL_TRUE; always false for a context without devices |
| Contexts.SupportsIL | src/libANGLE/CLContext.h:193-198 | true exactly when some device has a non-empty IL version string; false without devices |
| Contexts.SupportsBuiltInKernel | src/libANGLE/CLContext.h:200-205 | true exactly when some device supports the named built-in kernel; false without devices |
| Contexts.HasCommandQueue | src/libANGLE/CLContext.h:207-212 | true exactly when some owned command queue has the given identity |
| Contexts.HasMemory | src/libANGLE/CLContext.h:214-219 | true exactly when some owned memory object has the given identity |
| Contexts.HasSampler | src/libANGLE/CLContext.h:221-226 | true exactly when some owned sampler has the given identity |
| Contexts.HasProgram | src/libANGLE/CLContext.h:228-233 | true exactly when some owned program has the given identity |
| Contexts.Retain | src/libANGLE/CLContext.h:235-238 | the reference count grows by exactly one and no other part of the context changes |
| Contexts.RetainThenRemoveRef | src/libANGLE/CLContext.h:235-238 | a retain followed by one reference removal gives back the original context and does not report that the last reference was dropped |
| Contexts.SupportsILScenario | src/libANGLE/CLContext.h:193-198 | a context that holds a device with a non-empty IL version supports IL; a context whose only device has an empty one does not |
| Contexts.DevicePredicatesStable | src/libANGLE/CLContext.h:150-159 | the device list is constant: any two contexts with the same devices give the same device and capability answers, whatever their child lists, counts or properties |
| Contexts.InsertCommandQueue | src/libANGLE/CLContext.h:139 | appends the queue; membership becomes the old membership plus the new identity; earlier queues are still found unchanged; identities stay unique when the new one is fresh |
| Contexts.DestroyCommandQueue | src/libANGLE/CLContext.h:144 | removes one entry with that identity (the list is the old multiset minus it); with unique identities the queue is no longer owned; every other queue is still found unchanged |
| Contexts.NullIsNeverMember | src/libANGLE/CLContext.h:207-212 | a null pointer is never found among the devices, command queues, memory objects, samplers or programs, since no live object has address 0 |
| Contexts.ReplaceKeepsOthers | src/libANGLE/CLContext.h:156 | replacing an owned queue by one with the same identity keeps membership, lookup of every other identity, and uniqueness |
| RefCounting.RemoveRef | src/libANGLE/CLCommandQueue.cpp:29 | the count drops by one, and "released" is reported exactly when the count reaches zero |
| RefCounting.RetainThenRelease | src/libANGLE/CLContext.h:235-238 | adding then removing a reference restores the count and never reports a release |
| CommandQueues.Destruct | src/libANGLE/CLCommandQueue.cpp:19-25 | afterwards the destroyed queue's device does not name it as default; a slot naming it is emptied; every other slot and every other device is untouched |
| CommandQueues.Release | src/libANGLE/CLCommandQueue.cpp:27-35 | released exactly when the count was 1; then the queue is destroyed in its context and its default registration is dropped; otherwise only its count falls by one and all other queues, slots and context fields are unchanged |
| CommandQueues.AttributeBytes | src/libANGLE/CLCommandQueue.cpp:46-81 | unrecognised names yield nothing; every recognised name yields bytes of the attribute's size that decode back to the context, device, reference count, property bits, property array, size or device default |
| CommandQueues.CopyInto | src/libANGLE/CLCommandQueue.cpp:91-94 | the destination begins with the copied bytes and keeps its remaining bytes |
| CommandQueues.GetInfo | src/libANGLE/CLCommandQueue.cpp:37-101 | succeeds exactly when the name is recognised and any supplied buffer is large enough; on failure neither output is written; on success the buffer starts with the attribute's bytes, and the size output (when requested) is the attribute's size |
| CommandQueues.SizeProbeThenFetch | src/libANGLE/CLCommandQueue.cpp:83-100 | a size-only query followed by a query with a buffer of the reported size succeeds and delivers exactly the attribute |
| CommandQueues.ShortBufferRejected | src/libANGLE/CLCommandQueue.cpp:83-90 | a buffer smaller than the attribute is rejected with CL_INVALID_VALUE and left untouched |
| CommandQueues.LegacyPropertiesArrayIsEmpty | src/libANGLE/CLCommandQueue.cpp:66-68 | for a queue built by the legacy constructor the properties-array query returns zero bytes |
| CommandQueues.ConstructLegacy | src/libANGLE/CLCommandQueue.cpp:134-143 | the queue holds the given context, device and properties with an empty property array, the unset size and one reference; the default-queue slots are untouched; the status is the backend's |
| CommandQueues.ConstructWithProperties | src/libANGLE/CLCommandQueue.cpp:145-163 | the queue holds all given fields; the device's slot names the new queue exactly when the on-device-default bit is set or it already did; without the bit no slot changes; other devices never change |
| CommandQueues.DefaultQueueRegistration | src/libANGLE/CLCommandQueue.cpp:159-162 | a queue created with the default bit reports itself as device default, and after its destruction the slot is empty |
| CommandQueues.SetProperty | src/libANGLE/CLCommandQueue.cpp:103-124 | the old properties are reported whenever requested, even on failure; on backend failure the queue is unchanged; on success the named bits are cleared when enable is CL_FALSE and set otherwise, other bits and fields kept |
| CommandQueues.ClearBits | src/libANGLE/CLCommandQueue.cpp:116 | the named bits are all clear and every other bit is as before |
| CommandQueues.SetBits | src/libANGLE/CLCommandQueue.cpp:120 | the named bits are all set and every other bit is as before |
| CommandQueues.EnableThenDisableRestores | src/libANGLE/CLCommandQueue.cpp:111-123 | enabling bits that were clear and then disabling them, both accepted by the backend, gives back the original properties |
| Registry.PlatformHasCommandQueue | src/libANGLE/CLCommandQueue.cpp:130 | for any pointer value, null included: true exactly when some context of the platform owns a queue with that identity |
| Registry.IsValidCommandQueue | src/libANGLE/CLCommandQueue.cpp:126-132 | for any pointer value, null included: true exactly when some platform has a queue with that identity |
| Registry.NullIsNeverValid | src/libANGLE/CLCommandQueue.cpp:126-132 | the null pointer is never a valid command queue, whatever the platforms hold |
| Registry.ValidIffOwned | src/libANGLE/CLCommandQueue.cpp:126-132 | a handle is valid exactly when some context location of the state owns it |
| Registry.CreateCommandQueue | src/libANGLE/CLCommandQueue.cpp:134-143 | for a fresh address (no live queue has it, no slot names it): on backend success the new handle is valid and owned by the chosen context, and its record is the legacy constructor's queue (given device and properties, empty property array, one reference); ownership grows by exactly that queue, every other queue keeps its record and every other context is unchanged; on failure the queue is destroyed and the state is unchanged; the default slots never change |
| Registry.CreateCommandQueueWithProperties | src/libANGLE/CLCommandQueue.cpp:145-163 | for a fresh address (no live queue has it, no slot names it): on success the handle is valid and owned, and its record is the constructor's queue (given device, property array, properties and size, one reference); ownership grows by exactly that queue, every other queue keeps its record and every other context is unchanged; on failure the queue is destroyed, no platform changes and no slot of any device names the handle; with the default bit, success makes it the device default and failure leaves the slot empty |
| Registry.ReleaseCommandQueue | src/libANGLE/CLCommandQueue.cpp:27-35 | released exactly when the count was 1; the owning context becomes the one the context-level release gives and every other context is unchanged; a released sole-owned handle becomes invalid; an unreleased one stays valid with its count one lower |
| Registry.ReleaseLastReferenceInvalidates | src/libANGLE/CLCommandQueue.cpp:19-35 | under the invariants, dropping the last reference makes the handle invalid and no device keeps it as default; dropping any other reference keeps it valid |
| Registry.ReleasePreservesInvariant | src/libANGLE/CLCommandQueue.cpp:19-35 | release keeps queue identities unique, every default slot naming a live queue on its device, every live queue holding a reference and recording its owner, and context identities distinct |
| Registry.InvariantEnablesRelease | src/libANGLE/CLCommandQueue.cpp:27-32 | under the invariants an owned queue holds a reference, so it can be released, and the context it records is the one at its owner's location and at no other location, so the destruction at line 32 acts on the list that holds it |
| Registry.KeepIdsKeepsContextsDistinct | src/libANGLE/CLCommandQueue.cpp:32 | a step that changes only one context and keeps its identity keeps context identities distinct; creation and release are such steps |
| Registry.FreshAddressIsNoDefault | src/libANGLE/CLCommandQueue.cpp:19-25 | once every slot names a live queue, an address no live queue has is named by no slot, so a new queue's address meets the creation functions' requirement |
| Registry.ReleaseKeepsQueuesConsistent | src/libANGLE/CLCommandQueue.cpp:27-35 | after release every live queue still holds at least one reference and records its owner: a released queue is gone, an unreleased one had more than one reference |
| Registry.InsertKeepsQueuesConsistent | src/libANGLE/CLCommandQueue.cpp:134-163 | both constructors give the new queue one reference and its context's identity, so inserting it keeps every live queue holding a reference and recording its owner |
| Registry.CreateWithPropertiesPreservesInvariant | src/libANGLE/CLCommandQueue.cpp:145-163 | creation with properties of a fresh handle keeps all four invariants, whether the backend succeeds or fails |
| Registry.CreatePreservesInvariant | src/libANGLE/CLCommandQueue.cpp:134-143 | legacy creation of a fresh handle keeps all four invariants |
| Registry.FailedDefaultCreationEmptiesSlot | src/libANGLE/CLCommandQueue.cpp:157-162 | when a queue with the default bit fails in the backend, the device's previous default is no longer registered and no platform changes |

## Left out

- Backend calls (`mImpl->createCommandQueue`, `mImpl->setProperty`) are not modelled. Their result is a status parameter.
- Atomicity of the reference counter and any concurrent use are not modelled. Every operation is a single step.
- The bodies of `Context::createCommandQueue` and `Context::destroyCommandQueue` are in CLContext.cpp, which is not part of this model.
  - Ownership transfer is modelled as an append to the owned list.
  - Destruction is modelled as erasing the first entry with that identity.
  - A queue whose backend construction failed is destroyed at once, by either constructor's creation path, and never inserted.
- Creation and destruction of memory objects, samplers and programs are not modelled. So are context creation, `release`, `getInfo` and the error callback. Each is only declared in the context header, and children appear only as identities with counts.
- Checks that the caller's device belongs to the context, and the other argument validation done before construction, are not modelled. They sit in the entry-point layer.
- `Platform::GetPlatforms` and `Platform::hasCommandQueue` are not modelled; they are defined in the platform's source file, which is not part of this model.
  - The platform list is a field of the state.
  - A platform has a queue when one of its contexts does.
- `Device::supportsBuiltInKernel` is not modelled; it is defined in the device's source file, which is not part of this model. A device's built-in kernels are a set of names.
- The CLCommandQueue header is not part of this model, so the following are assumed:
  - the size field defaults to `0xFFFFFFFF` (`CommandQueues.NoSize`);
  - `BitField::isSet` is true when any of the named bits is set;
  - `BitField::clear` and `BitField::set` are `mask & !bits` and `mask | bits`;
  - `sizeof(mProperties)` is 8, a `cl_bitfield`;
  - `sizeof(mSize)` is 4, a `cl_uint`;
  - a queue's own `retain` is not modelled.
- src/libANGLE/renderer/cl/CLPlatformCL.h holds only declarations of the backend platform, which is not modelled.
- The ICD dispatch pointer that every object starts with is not modelled.
- Byte order and pointer width are fixed: little-endian with 8-byte pointers.
- CommandQueues.AttributeBytes: reports the reference count modulo 2^32, because the reference-count attribute is a 32-bit `cl_uint` while the model's count is unbounded.

The with-properties constructor registers the queue as its device's default whatever status the backend wrote to `errorCode`, because it never checks that status. In this model, the creation path then destroys the failed queue, which empties the slot. So a failed creation with the default bit also drops the device's previous default queue. `Registry.FailedDefaultCreationEmptiesSlot` states this consequence of the constructor together with the modelled creation path.

=== FILE: bytes.dfy ===
/**
 * Host byte representation of the scalar values that an info query copies
 * into the caller's buffer. `memcpy` of a host value is modelled as its
 * little-endian encoding at the value's C width.
 */
module Bytes {
  import opened ClTypes

  /** An octet of host memory. */
  newtype Byte = b: int | 0 <= b < 256

  function Pow256(n: nat): (r: nat)
    ensures r > 0
  {
    if n == 0 then 1 else 256 * Pow256(n - 1)
  }

  lemma Pow256Eight()
    ensures Pow256(8) == 0x1_0000_0000_0000_0000
  {
    assert Pow256(1) == 0x100;
    assert Pow256(2) == 0x1_0000;
    assert Pow256(3) == 0x100_0000;
    assert Pow256(4) == 0x1_0000_0000;
    assert Pow256(5) == 0x100_0000_0000;
    assert Pow256(6) == 0x1_0000_0000_0000;
    assert Pow256(7) == 0x100_0000_0000_0000;
  }

  /** The low `width` bytes of `v`, least significant first. */
  function EncodeLE(v: nat, width: nat): (r: seq<Byte>)
    ensures |r| == width
  {
    if width == 0 then [] else [(v % 256) as Byte] + EncodeLE(v / 256, width - 1)
  }

  /** The unsigned value whose little-endian representation is `bs`. */
  function DecodeLE(bs: seq<Byte>): (v: nat)
    ensures v < Pow256(|bs|)
  {
    if |bs| == 0 then 0 else bs[0] as nat + 256 * DecodeLE(bs[1..])
  }

  /** Decoding the encoding of a value that fits in `width` bytes gives the value back. */
  lemma {:induction false} DecodeEncode(v: nat, width: nat)
    requires v < Pow256(width)
    ensures DecodeLE(EncodeLE(v, width)) == v
  {
    if width > 0 {
      var q, m := v / 256, v % 256;
      assert v == 256 * q + m;
      assert q < Pow256(width - 1);
      var e := EncodeLE(v, width);
      assert e[0] as nat == m;
      assert e[1..] == EncodeLE(q, width - 1);
      DecodeEncode(q, width - 1);
      assert DecodeLE(e) == e[0] as nat + 256 * DecodeLE(e[1..]);
    }
  }

  /** Encoding a decoded byte string at its own width gives the bytes back. */
  lemma {:induction false} EncodeDecode(bs: seq<Byte>)
    ensures EncodeLE(DecodeLE(bs), |bs|) == bs
  {
    if |bs| > 0 {
      var v := DecodeLE(bs);
      assert v % 256 == bs[0] as nat && v / 256 == DecodeLE(bs[1..]);
      EncodeDecode(bs[1..]);
      assert ((v % 256) as Byte) == bs[0];
    }
  }

  /** The bytes of a pointer value. */
  function PointerBytes(v: nat): (r: seq<Byte>)
    requires v < 0x1_0000_0000_0000_0000
    ensures |r| == PointerSize && DecodeLE(r) == v
  {
    Pow256Eight();
    DecodeEncode(v, PointerSize);
    EncodeLE(v, PointerSize)
  }

  /** The bytes of a `cl_uint`. */
  function UintBytes(v: Uint32): (r: seq<Byte>)
    ensures |r| == UintSize && DecodeLE(r) == v
  {
    assert Pow256(4) == 0x1_0000_0000;
    DecodeEncode(v, UintSize);
    EncodeLE(v, UintSize)
  }

  /** The bytes of a `cl_bitfield`. */
  function BitfieldBytes(b: Bitfield): (r: seq<Byte>)
    ensures |r| == BitfieldSize && DecodeLE(r) == b as nat
  {
    var v := b as nat;
    Pow256Eight();
    DecodeEncode(v, BitfieldSize);
    EncodeLE(v, BitfieldSize)
  }

  /** An array of 64-bit words laid out contiguously, as `std::vector::data()` holds it. */
  function EncodeWords(ws: seq<Uint64>): (r: seq<Byte>)
    ensures |r| == 8 * |ws|
  {
    if |ws| == 0 then [] else EncodeLE(ws[0], 8) + EncodeWords(ws[1..])
  }

  /** Reads back the 64-bit words of a byte string whose length is a multiple of 8. */
  function DecodeWords(bs: seq<Byte>): (r: seq<Uint64>)
    requires |bs| % 8 == 0
    ensures 8 * |r| == |bs|
  {
    if |bs| == 0 then []
    else
      Pow256Eight();
      [DecodeLE(bs[..8])] + DecodeWords(bs[8..])
  }

  lemma {:induction false} DecodeEncodeWords(ws: seq<Uint64>)
    ensures DecodeWords(EncodeWords(ws)) == ws
  {
    if |ws| > 0 {
      var e := EncodeWords(ws);
      assert e[..8] == EncodeLE(ws[0], 8);
      assert e[8..] == EncodeWords(ws[1..]);
      assert DecodeLE(e[..8]) == ws[0] by {
        Pow256Eight();
        DecodeEncode(ws[0], 8);
      }
      DecodeEncodeWords(ws[1..]);
    }
  }
}

=== FILE: cl_types.dfy ===
/**
 * Scalar types, status codes and bit constants of the OpenCL API that the
 * object model uses. Widths follow the OpenCL headers on a 64-bit host.
 */
module ClTypes {
  import opened Wrappers

  /** A `cl_int` status code: zero is success, every failure is negative. */
  type Status = int

  /** CL_SUCCESS */
  const ClSuccess: Status := 0
  /** CL_INVALID_VALUE */
  const ClInvalidValue: Status := -30

  /** A `cl_uint`. */
  type Uint32 = x: nat | x < 0x1_0000_0000

  /** A `cl_ulong`. */
  type Uint64 = x: nat | x < 0x1_0000_0000_0000_0000

  /** A `cl_bool` is a `cl_uint`; only CL_FALSE and CL_TRUE are named. */
  type ClBool = Uint32
  const ClFalse: ClBool := 0
  const ClTrue: ClBool := 1

  /** A `cl_bitfield` (a `cl_ulong`), as used for `cl_command_queue_properties`. */
  type Bitfield = bv64

  /** The `cl_command_queue_properties` bit that asks for the device's default queue. */
  const QueueOnDeviceDefault: Bitfield := 0x8

  /** True when any of `bits` is set in `mask`. */
  predicate IsSet(mask: Bitfield, bits: Bitfield) {
    mask & bits != 0
  }

  /** Byte sizes of the values a command-queue query can return. */
  const PointerSize: nat := 8   // any handle; a 64-bit host is assumed
  const UintSize: nat := 4      // cl_uint
  const BitfieldSize: nat := 8  // cl_bitfield and cl_queue_properties

  /**
   * The address of a live API object. Handle identity is object identity;
   * an address is never null and fits in a pointer.
   */
  type Handle = h: nat | 0 < h < 0x1_0000_0000_0000_0000 witness 1

  /**
   * A raw pointer value as a caller hands it in: any address, null (0)
   * included. Lookups take this type; live objects have a `Handle`.
   */
  type Address = a: nat | a < 0x1_0000_0000_0000_0000

  /** The null pointer. */
  const Null: Address := 0

  /** The pointer value stored for an optional object reference; null is 0. */
  function PointerValue(o: Option<Handle>): (v: nat)
    ensures v < 0x1_0000_0000_0000_0000
    ensures v == 0 <==> o.None?
    ensures o.Some? ==> v == o.value
  {
    match o
    case None => 0
    case Some(h) => h
  }
}

=== FILE: command_queue.dfy ===
/**
 * The command queue: its two constructors (with default-queue registration),
 * its destructor, `release`, the attribute query `getInfo` and `setProperty`.
 * The backend is not modelled: where the queue calls into it, the backend's
 * status code is an input.
 */
module CommandQueues {
  import opened Wrappers
  import opened ClTypes
  import opened Bytes
  import opened Objects
  import opened Contexts
  import RefCounting

  /** The queue size a queue created without a property array reports. */
  const NoSize: Uint32 := 0xFFFF_FFFF

  // ---------------------------------------------------------------------
  // Construction and destruction
  // ---------------------------------------------------------------------

  /** A freshly constructed queue, the default-queue slots after construction, and the backend's status. */
  datatype Construction = Construction(queue: CommandQueue, defaults: DefaultQueues, status: Status)

  /**
   * The legacy constructor (properties as a bitmask only). It never touches
   * any device's default-queue slot.
   */
  function ConstructLegacy(defaults: DefaultQueues, context: ContextId, device: DeviceId,
                           id: QueueId, properties: Bitfield, backendStatus: Status): (r: Construction)
    ensures r.queue.id == id && r.queue.context == context && r.queue.device == device
    ensures r.queue.properties == properties
    ensures r.queue.propArray == [] && r.queue.size == NoSize
    ensures r.queue.refCount == 1
    ensures r.defaults == defaults
    ensures r.status == backendStatus
  {
    Construction(CommandQueue(id, context, device, [], properties, NoSize, 1), defaults, backendStatus)
  }

  /**
   * The constructor taking a property array. The queue registers itself as
   * its device's default queue exactly when the on-device-default bit is
   * set, whatever status the backend reported.
   */
  function ConstructWithProperties(defaults: DefaultQueues, context: ContextId, device: DeviceId,
                                   id: QueueId, propArray: seq<Uint64>, properties: Bitfield,
                                   size: Uint32, backendStatus: Status): (r: Construction)
    ensures r.queue.id == id && r.queue.context == context && r.queue.device == device
    ensures r.queue.propArray == propArray && r.queue.properties == properties
    ensures r.queue.size == size && r.queue.refCount == 1
    ensures r.status == backendStatus
    ensures (DefaultQueueOf(r.defaults, device) == Some(id))
              <==> (IsSet(properties, QueueOnDeviceDefault) || DefaultQueueOf(defaults, device) == Some(id))
    ensures !IsSet(properties, QueueOnDeviceDefault) ==> r.defaults == defaults
    ensures forall d :: d != device ==> DefaultQueueOf(r.defaults, d) == DefaultQueueOf(defaults, d)
  {
    var q := CommandQueue(id, context, device, propArray, properties, size, 1);
    var slots := if IsSet(properties, QueueOnDeviceDefault) then defaults[device := Some(id)] else defaults;
    Construction(q, slots, backendStatus)
  }

  /**
   * The destructor: clears the device's default-queue slot if, and only if,
   * it still names this queue.
   */
  function Destruct(defaults: DefaultQueues, q: CommandQueue): (r: DefaultQueues)
    ensures DefaultQueueOf(defaults, q.device) == Some(q.id) ==> DefaultQueueOf(r, q.device) == None
    ensures DefaultQueueOf(defaults, q.device) != Some(q.id) ==> r == defaults
    ensures DefaultQueueOf(r, q.device) != Some(q.id)
    ensures forall d :: d != q.device ==> DefaultQueueOf(r, d) == DefaultQueueOf(defaults, d)
  {
    if DefaultQueueOf(defaults, q.device) == Some(q.id) then defaults[q.device := None] else defaults
  }

  // ---------------------------------------------------------------------
  // release
  // ---------------------------------------------------------------------

  /** The owning context and slots after `release`, and whether the queue was destroyed. */
  datatype ReleaseReply = ReleaseReply(context: Context, defaults: DefaultQueues, released: bool)

  /**
   * `release` of queue `q` owned by `c`: drops one reference; when none is
   * left, the context destroys the queue (removing it from its list), whose
   * destructor clears the device's default slot if it named the queue.
   */
  function Release(c: Context, q: QueueId, defaults: DefaultQueues): (r: ReleaseReply)
    requires HasCommandQueue(c, q)
    requires QueueOf(c, q).refCount > 0
    ensures r.released <==> QueueOf(c, q).refCount == 1
    ensures r.released ==> r.context == DestroyCommandQueue(c, q)
    ensures r.released ==> r.defaults == Destruct(defaults, QueueOf(c, q))
    ensures r.released ==> DefaultQueueOf(r.defaults, QueueOf(c, q).device) != Some(q)
    ensures r.released && UniqueQueues(c) ==> !HasCommandQueue(r.context, q)
    ensures !r.released ==> r.defaults == defaults
    ensures !r.released ==> HasCommandQueue(r.context, q)
                            && QueueOf(r.context, q).refCount == QueueOf(c, q).refCount - 1
                            && QueueOf(r.context, q).(refCount := QueueOf(c, q).refCount) == QueueOf(c, q)
    ensures !r.released ==> |r.context.commandQueues| == |c.commandQueues|
                            && forall j :: 0 <= j < |c.commandQueues| && j != QueueIndex(c, q)
                                 ==> r.context.commandQueues[j] == c.commandQueues[j]
    ensures !r.released && UniqueQueues(c) ==> UniqueQueues(r.context)
    ensures forall q' :: q' != q ==> (HasCommandQueue(r.context, q') <==> HasCommandQueue(c, q'))
    ensures forall q' :: q' != q && HasCommandQueue(c, q') ==> QueueOf(r.context, q') == QueueOf(c, q')
    ensures r.context.(commandQueues := c.commandQueues) == c
  {
    var k := QueueIndex(c, q);
    var cq := c.commandQueues[k];
    var removal := RefCounting.RemoveRef(cq.refCount);
    if removal.reachedZero then
      ReleaseReply(DestroyCommandQueue(c, q), Destruct(defaults, cq), true)
    else
      var c' := c.(commandQueues := c.commandQueues[k := cq.(refCount := removal.count)]);
      ReplaceKeepsOthers(c, k, cq.(refCount := removal.count), c');
      ReleaseReply(c', defaults, false)
  }

  // ---------------------------------------------------------------------
  // getInfo
  // ---------------------------------------------------------------------

  /** The attribute selectors of a command-queue query; any other value is `Unrecognized`. */
  datatype InfoName =
    | QueueContext
    | QueueDevice
    | QueueReferenceCount
    | QueueProperties
    | QueuePropertiesArray
    | QueueSize
    | QueueDeviceDefault
    | Unrecognized

  /**
   * The bytes the query copies for `name`, or `None` for an unrecognised
   * selector. `deviceDefault` is the current content of the queue's device's
   * default-queue slot.
   */
  function AttributeBytes(q: CommandQueue, deviceDefault: Option<QueueId>, name: InfoName): (r: Option<seq<Byte>>)
    ensures r.None? <==> name == Unrecognized
    ensures name == QueueContext ==>
              r.Some? && |r.value| == PointerSize && DecodeLE(r.value) == q.context
    ensures name == QueueDevice ==>
              r.Some? && |r.value| == PointerSize && DecodeLE(r.value) == q.device
    ensures name == QueueReferenceCount ==>
              r.Some? && |r.value| == UintSize && DecodeLE(r.value) == q.refCount % 0x1_0000_0000
    ensures name == QueueProperties ==>
              r.Some? && |r.value| == BitfieldSize && DecodeLE(r.value) == q.properties as nat
    ensures name == QueuePropertiesArray ==>
              r.Some? && |r.value| == BitfieldSize * |q.propArray| && DecodeWords(r.value) == q.propArray
    ensures name == QueueSize ==>
              r.Some? && |r.value| == UintSize && DecodeLE(r.value) == q.size
    ensures name == QueueDeviceDefault ==>
              r.Some? && |r.value| == PointerSize && DecodeLE(r.value) == PointerValue(deviceDefault)
  {
    match name
    case QueueContext => Some(PointerBytes(q.context))
    case QueueDevice => Some(PointerBytes(q.device))
    case QueueReferenceCount => Some(UintBytes(q.refCount % 0x1_0000_0000))
    case QueueProperties => Some(BitfieldBytes(q.properties))
    case QueuePropertiesArray =>
      DecodeEncodeWords(q.propArray);
      Some(EncodeWords(q.propArray))
    case QueueSize => Some(UintBytes(q.size))
    case QueueDeviceDefault => Some(PointerBytes(PointerValue(deviceDefault)))
    case Unrecognized => None
  }

  /** `memcpy` of `src` to the start of `dst`. */
  function CopyInto(dst: seq<Byte>, src: seq<Byte>): (r: seq<Byte>)
    requires |src| <= |dst|
    ensures |r| == |dst|
    ensures r[..|src|] == src
    ensures r[|src|..] == dst[|src|..]
  {
    src + dst[|src|..]
  }

  /**
   * The caller-visible effect of a query: the status, the destination
   * buffer (`None` for a null pointer) and the content of `*valueSizeRet`
   * (`None` for a null pointer).
   */
  datatype InfoReply = InfoReply(status: Status, value: Option<seq<Byte>>, sizeRet: Option<nat>)

  /**
   * `getInfo(name, valueSize, value, valueSizeRet)`. The caller's buffer,
   * when there is one, holds at least `valueSize` bytes.
   */
  function GetInfo(q: CommandQueue, defaults: DefaultQueues, name: InfoName, valueSize: nat,
                   value: Option<seq<Byte>>, valueSizeRet: Option<nat>): (r: InfoReply)
    requires value.Some? ==> valueSize <= |value.value|
    ensures var attr := AttributeBytes(q, DefaultQueueOf(defaults, q.device), name);
      && (r.status == ClSuccess || r.status == ClInvalidValue)
      && (r.status == ClSuccess <==> attr.Some? && (value.Some? ==> |attr.value| <= valueSize))
      && (r.status != ClSuccess ==> r.value == value && r.sizeRet == valueSizeRet)
      && (r.status == ClSuccess ==>
            && (r.value.Some? <==> value.Some?)
            && (r.sizeRet.Some? <==> valueSizeRet.Some?)
            && (valueSizeRet.Some? ==> r.sizeRet.value == |attr.value|)
            && (value.Some? ==>
                  && |r.value.value| == |value.value|
                  && r.value.value[..|attr.value|] == attr.value
                  && r.value.value[|attr.value|..] == value.value[|attr.value|..]))
  {
    match AttributeBytes(q, DefaultQueueOf(defaults, q.device), name)
    case None => InfoReply(ClInvalidValue, value, valueSizeRet)
    case Some(bytes) =>
      if value.Some? && valueSize < |bytes| then
        InfoReply(ClInvalidValue, value, valueSizeRet)
      else
        var copied := if value.Some? then Some(CopyInto(value.value, bytes)) else None;
        var written := if valueSizeRet.Some? then Some(|bytes|) else None;
        InfoReply(ClSuccess, copied, written)
  }

  // ---------------------------------------------------------------------
  // setProperty
  // ---------------------------------------------------------------------

  /** The queue after `setProperty`, the status returned, and `*oldProperties` (`None` for null). */
  datatype SetPropertyReply = SetPropertyReply(status: Status, queue: CommandQueue, oldProperties: Option<Bitfield>)

  /**
   * `setProperty(properties, enable, oldProperties)`. The pre-call bitmask
   * is reported unconditionally; the cached bitmask follows the request only
   * when the backend (whose status is `backendStatus`) succeeded.
   */
  function SetProperty(q: CommandQueue, properties: Bitfield, enable: ClBool,
                       oldProperties: Option<Bitfield>, backendStatus: Status): (r: SetPropertyReply)
    ensures r.status == backendStatus
    ensures r.oldProperties.Some? <==> oldProperties.Some?
    ensures oldProperties.Some? ==> r.oldProperties.value == q.properties
    ensures r.queue.(properties := q.properties) == q
    ensures backendStatus != ClSuccess ==> r.queue == q
    ensures backendStatus == ClSuccess && enable == ClFalse ==> r.queue.properties == ClearBits(q.properties, properties)
    ensures backendStatus == ClSuccess && enable != ClFalse ==> r.queue.properties == SetBits(q.properties, properties)
  {
    var reported := if oldProperties.Some? then Some(q.properties) else None;
    if backendStatus == ClSuccess then
      var mask := if enable == ClFalse then ClearBits(q.properties, properties) else SetBits(q.properties, properties);
      SetPropertyReply(backendStatus, q.(properties := mask), reported)
    else
      SetPropertyReply(backendStatus, q, reported)
  }

  /** `BitField::clear`: the requested bits become clear, every other bit is kept. */
  function ClearBits(mask: Bitfield, bits: Bitfield): (r: Bitfield)
    ensures r & bits == 0
    ensures r & !bits == mask & !bits
  {
    mask & !bits
  }

  /** `BitField::set`: the requested bits become set, every other bit is kept. */
  function SetBits(mask: Bitfield, bits: Bitfield): (r: Bitfield)
    ensures r & bits == bits
    ensures r & !bits == mask & !bits
  {
    mask | bits
  }

  // ---------------------------------------------------------------------
  // Properties
  // ---------------------------------------------------------------------

  /**
   * A size probe (null buffer) followed by a fetch with the probed size
   * succeeds, reports the same size, and fills the buffer's first bytes
   * with the attribute; with or without `valueSizeRet` the buffer is the same.
   */
  lemma SizeProbeThenFetch(q: CommandQueue, defaults: DefaultQueues, name: InfoName,
                           buffer: seq<Byte>, probeSlot: nat, fetchSlot: nat)
    requires name != Unrecognized
    ensures var probe := GetInfo(q, defaults, name, 0, None, Some(probeSlot));
      && probe.status == ClSuccess
      && probe.value == None
      && probe.sizeRet.Some?
      && (probe.sizeRet.value <= |buffer| ==>
            var size := probe.sizeRet.value;
            var fetch := GetInfo(q, defaults, name, size, Some(buffer), Some(fetchSlot));
            var fetchOnly := GetInfo(q, defaults, name, size, Some(buffer), None);
            && fetch.status == ClSuccess
            && fetch.sizeRet == Some(size)
            && fetch.value == fetchOnly.value
            && fetchOnly.status == ClSuccess && fetchOnly.sizeRet == None
            && fetch.value.Some? && fetch.value.value[..size] == AttributeBytes(q, DefaultQueueOf(defaults, q.device), name).value)
  {
    var attr := AttributeBytes(q, DefaultQueueOf(defaults, q.device), name).value;
    if |attr| <= |buffer| {
      var fetch := GetInfo(q, defaults, name, |attr|, Some(buffer), Some(fetchSlot));
      var fetchOnly := GetInfo(q, defaults, name, |attr|, Some(buffer), None);
      assert fetch.value.value == attr + buffer[|attr|..] by {
        assert fetch.value.value == fetch.value.value[..|attr|] + fetch.value.value[|attr|..];
      }
      assert fetchOnly.value.value == attr + buffer[|attr|..] by {
        assert fetchOnly.value.value == fetchOnly.value.value[..|attr|] + fetchOnly.value.value[|attr|..];
      }
    }
  }

  /**
   * A destination one byte smaller than the attribute is rejected with
   * CL_INVALID_VALUE, and neither the buffer nor `*valueSizeRet` changes.
   */
  lemma ShortBufferRejected(q: CommandQueue, defaults: DefaultQueues, name: InfoName,
                            buffer: seq<Byte>, valueSizeRet: Option<nat>)
    requires name != Unrecognized
    requires var attr := AttributeBytes(q, DefaultQueueOf(defaults, q.device), name).value;
      |attr| > 0 && |attr| - 1 <= |buffer|
    ensures var size := |AttributeBytes(q, DefaultQueueOf(defaults, q.device), name).value|;
      GetInfo(q, defaults, name, size - 1, Some(buffer), valueSizeRet)
        == InfoReply(ClInvalidValue, Some(buffer), valueSizeRet)
  {
  }

  /**
   * A queue built by the legacy constructor reports an empty property array:
   * the query succeeds, reports size 0 and copies nothing.
   */
  lemma LegacyPropertiesArrayIsEmpty(defaults: DefaultQueues, context: ContextId, device: DeviceId,
                                     id: QueueId, properties: Bitfield, backendStatus: Status,
                                     valueSize: nat, buffer: seq<Byte>, slot: nat)
    requires valueSize <= |buffer|
    ensures var q := ConstructLegacy(defaults, context, device, id, properties, backendStatus).queue;
      GetInfo(q, defaults, QueuePropertiesArray, valueSize, Some(buffer), Some(slot))
        == InfoReply(ClSuccess, Some(buffer), Some(0))
  {
    var q := ConstructLegacy(defaults, context, device, id, properties, backendStatus).queue;
    var r := GetInfo(q, defaults, QueuePropertiesArray, valueSize, Some(buffer), Some(slot));
    assert r.value.value == r.value.value[0..];
  }

  /**
   * A queue created as its device's default reports itself through the
   * device-default query until it is destroyed; its destruction empties the slot.
   */
  lemma DefaultQueueRegistration(defaults: DefaultQueues, context: ContextId, device: DeviceId,
                                 id: QueueId, propArray: seq<Uint64>, properties: Bitfield,
                                 size: Uint32, backendStatus: Status, buffer: seq<Byte>)
    requires IsSet(properties, QueueOnDeviceDefault)
    requires PointerSize <= |buffer|
    ensures var built := ConstructWithProperties(defaults, context, device, id, propArray, properties, size, backendStatus);
      var fetched := GetInfo(built.queue, built.defaults, QueueDeviceDefault, PointerSize, Some(buffer), None);
      && fetched.status == ClSuccess
      && DecodeLE(fetched.value.value[..PointerSize]) == id
      && DefaultQueueOf(Destruct(built.defaults, built.queue), device) == None
  {
  }

  /**
   * Enabling bits that were clear and then disabling them again, both
   * accepted by the backend, gives back the original queue; each call
   * reports the bitmask that was current before it.
   */
  lemma EnableThenDisableRestores(q: CommandQueue, bits: Bitfield, enable: ClBool, old0: Bitfield, old1: Bitfield)
    requires q.properties & bits == 0
    requires enable != ClFalse
    ensures var first := SetProperty(q, bits, enable, Some(old0), ClSuccess);
      var second := SetProperty(first.queue, bits, ClFalse, Some(old1), ClSuccess);
      && first.oldProperties == Some(q.properties)
      && second.oldProperties == Some(first.queue.properties)
      && second.queue == q
  {
    var first := SetProperty(q, bits, enable, Some(old0), ClSuccess);
    var second := SetProperty(first.queue, bits, ClFalse, Some(old1), ClSuccess);
    BitsRestored(q.properties, bits);
    assert second.queue.properties == q.properties;
  }

  /** Clearing freshly set bits that were clear before restores the mask. */
  lemma BitsRestored(mask: Bitfield, bits: Bitfield)
    requires mask & bits == 0
    ensures ClearBits(SetBits(mask, bits), bits) == mask
  {
  }
}

=== FILE: context.dfy ===
/**
 * The context's membership and capability predicates, its retain, and the
 * queue-list bookkeeping a command queue's creation and release rely on.
 * Every predicate is a `find_if` over one list of the context.
 */
module Contexts {
  import opened ClTypes
  import opened Objects
  import opened Search
  import RefCounting

  /** The context's device list contains a device with identity `d`. */
  function HasDevice(c: Context, d: Address): (r: bool)
    ensures r <==> exists i :: 0 <= i < |c.devices| && c.devices[i].id == d
  {
    AnyOf(c.devices, (dev: Device) => dev.id == d)
  }

  /** Some device of the context reports image support (CL_TRUE). */
  function SupportsImages(c: Context): (r: bool)
    ensures r <==> exists i :: 0 <= i < |c.devices| && c.devices[i].info.imageSupport == ClTrue
    ensures |c.devices| == 0 ==> !r
  {
    AnyOf(c.devices, (dev: Device) => dev.info.imageSupport == ClTrue)
  }

  /** Some device of the context reports a non-empty intermediate-language version. */
  function SupportsIL(c: Context): (r: bool)
    ensures r <==> exists i :: 0 <= i < |c.devices| && |c.devices[i].info.ilVersion| > 0
    ensures |c.devices| == 0 ==> !r
  {
    AnyOf(c.devices, (dev: Device) => |dev.info.ilVersion| != 0)
  }

  /** Some device of the context supports the built-in kernel `name`. */
  function SupportsBuiltInKernel(c: Context, name: string): (r: bool)
    ensures r <==> exists i :: 0 <= i < |c.devices| && DeviceSupportsBuiltInKernel(c.devices[i], name)
    ensures |c.devices| == 0 ==> !r
  {
    AnyOf(c.devices, (dev: Device) => DeviceSupportsBuiltInKernel(dev, name))
  }

  /** The context owns a command queue with identity `q`. */
  function HasCommandQueue(c: Context, q: Address): (r: bool)
    ensures r <==> exists i :: 0 <= i < |c.commandQueues| && c.commandQueues[i].id == q
  {
    AnyOf(c.commandQueues, (cq: CommandQueue) => cq.id == q)
  }

  /** The context owns a memory object with identity `m`. */
  function HasMemory(c: Context, m: Address): (r: bool)
    ensures r <==> exists i :: 0 <= i < |c.memories| && c.memories[i].id == m
  {
    AnyOf(c.memories, (mem: Memory) => mem.id == m)
  }

  /** The context owns a sampler with identity `s`. */
  function HasSampler(c: Context, s: Address): (r: bool)
    ensures r <==> exists i :: 0 <= i < |c.samplers| && c.samplers[i].id == s
  {
    AnyOf(c.samplers, (smp: Sampler) => smp.id == s)
  }

  /** The context owns a program with identity `p`. */
  function HasProgram(c: Context, p: Address): (r: bool)
    ensures r <==> exists i :: 0 <= i < |c.programs| && c.programs[i].id == p
  {
    AnyOf(c.programs, (prg: Program) => prg.id == p)
  }

  /** `retain`: one more reference to the context and no other change. */
  function Retain(c: Context): (r: Context)
    ensures r.refCount == c.refCount + 1
    ensures r.(refCount := c.refCount) == c
  {
    c.(refCount := RefCounting.AddRef(c.refCount))
  }

  /** No two queues in the context's list share an identity. */
  predicate UniqueQueues(c: Context) {
    forall i, j :: 0 <= i < j < |c.commandQueues| ==> c.commandQueues[i].id != c.commandQueues[j].id
  }

  /** Position of the first queue with identity `q` in the context's list. */
  function QueueIndex(c: Context, q: Address): (k: nat)
    requires HasCommandQueue(c, q)
    ensures k < |c.commandQueues| && c.commandQueues[k].id == q
    ensures forall j :: 0 <= j < k ==> c.commandQueues[j].id != q
  {
    FindIf(c.commandQueues, (cq: CommandQueue) => cq.id == q)
  }

  /** The queue with identity `q` that the context owns. */
  function QueueOf(c: Context, q: Address): (cq: CommandQueue)
    requires HasCommandQueue(c, q)
    ensures cq.id == q && cq in c.commandQueues
  {
    c.commandQueues[QueueIndex(c, q)]
  }

  /** Adds a successfully created queue at the end of the context's list. */
  function InsertCommandQueue(c: Context, cq: CommandQueue): (r: Context)
    ensures r.commandQueues == c.commandQueues + [cq]
    ensures HasCommandQueue(r, cq.id)
    ensures forall q :: HasCommandQueue(r, q) <==> HasCommandQueue(c, q) || q == cq.id
    ensures forall q :: HasCommandQueue(c, q) ==> QueueOf(r, q) == QueueOf(c, q)
    ensures !HasCommandQueue(c, cq.id) ==> QueueOf(r, cq.id) == cq
    ensures UniqueQueues(c) && !HasCommandQueue(c, cq.id) ==> UniqueQueues(r)
    ensures r.(commandQueues := c.commandQueues) == c
  {
    var r := c.(commandQueues := c.commandQueues + [cq]);
    AppendKeepsOthers(c, cq, r);
    r
  }

  /** Appending a queue keeps every identity and the first entry for it. */
  lemma AppendKeepsOthers(c: Context, cq: CommandQueue, r: Context)
    requires r.commandQueues == c.commandQueues + [cq]
    ensures HasCommandQueue(r, cq.id)
    ensures forall q :: HasCommandQueue(r, q) <==> HasCommandQueue(c, q) || q == cq.id
    ensures forall q :: HasCommandQueue(c, q) ==> QueueOf(r, q) == QueueOf(c, q)
    ensures !HasCommandQueue(c, cq.id) ==> QueueOf(r, cq.id) == cq
    ensures UniqueQueues(c) && !HasCommandQueue(c, cq.id) ==> UniqueQueues(r)
  {
    var qs, n := r.commandQueues, |c.commandQueues|;
    assert qs[n].id == cq.id;
    assert forall i :: 0 <= i < n ==> qs[i] == c.commandQueues[i];
    forall q | HasCommandQueue(c, q)
      ensures QueueOf(r, q) == QueueOf(c, q)
    {
      assert QueueIndex(r, q) == QueueIndex(c, q);
    }
    if !HasCommandQueue(c, cq.id) {
      assert QueueIndex(r, cq.id) == n;
    }
    forall q | HasCommandQueue(r, q)
      ensures HasCommandQueue(c, q) || q == cq.id
    {
      var i :| 0 <= i < |qs| && qs[i].id == q;
      if i < n { assert c.commandQueues[i].id == q; }
    }
  }

  /**
   * `destroyCommandQueue`: erases the first list entry with identity `q`,
   * which destroys that queue; the other lists are untouched.
   */
  function DestroyCommandQueue(c: Context, q: QueueId): (r: Context)
    requires HasCommandQueue(c, q)
    ensures |r.commandQueues| == |c.commandQueues| - 1
    ensures multiset(r.commandQueues) + multiset{QueueOf(c, q)} == multiset(c.commandQueues)
    ensures UniqueQueues(c) ==> !HasCommandQueue(r, q) && UniqueQueues(r)
    ensures forall q' :: q' != q ==> (HasCommandQueue(r, q') <==> HasCommandQueue(c, q'))
    ensures forall q' :: q' != q && HasCommandQueue(c, q') ==> QueueOf(r, q') == QueueOf(c, q')
    ensures r.(commandQueues := c.commandQueues) == c
  {
    var k := QueueIndex(c, q);
    var r := c.(commandQueues := EraseAt(c.commandQueues, k));
    EraseKeepsOthers(c, k, r);
    r
  }

  /** Erasing entry `k` keeps every other identity and the first entry for it. */
  lemma EraseKeepsOthers(c: Context, k: nat, r: Context)
    requires k < |c.commandQueues|
    requires r.commandQueues == EraseAt(c.commandQueues, k)
    ensures forall q' :: q' != c.commandQueues[k].id ==> (HasCommandQueue(r, q') <==> HasCommandQueue(c, q'))
    ensures forall q' :: q' != c.commandQueues[k].id && HasCommandQueue(c, q') ==> QueueOf(r, q') == QueueOf(c, q')
  {
    var qs, q := r.commandQueues, c.commandQueues[k].id;
    forall q' | q' != q && HasCommandQueue(c, q')
      ensures HasCommandQueue(r, q') && QueueOf(r, q') == QueueOf(c, q')
    {
      var i := QueueIndex(c, q');
      if i < k {
        assert qs[i].id == q';
        assert QueueIndex(r, q') == i;
      } else {
        assert i != k;
        assert qs[i - 1].id == q';
        assert forall j :: 0 <= j < i - 1 ==> qs[j].id != q' by {
          forall j | 0 <= j < i - 1 ensures qs[j].id != q' {
            if j >= k { assert qs[j] == c.commandQueues[j + 1]; }
          }
        }
        assert QueueIndex(r, q') == i - 1;
      }
    }
    forall q' | q' != q && HasCommandQueue(r, q')
      ensures HasCommandQueue(c, q')
    {
      var i :| 0 <= i < |qs| && qs[i].id == q';
      if i < k { assert c.commandQueues[i].id == q'; } else { assert c.commandQueues[i + 1].id == q'; }
    }
  }

  /** Replacing entry `k` by a queue with the same identity keeps every identity in place. */
  lemma ReplaceKeepsOthers(c: Context, k: nat, cq: CommandQueue, r: Context)
    requires k < |c.commandQueues| && cq.id == c.commandQueues[k].id
    requires r.commandQueues == c.commandQueues[k := cq]
    ensures forall q :: HasCommandQueue(r, q) <==> HasCommandQueue(c, q)
    ensures forall q :: HasCommandQueue(c, q) ==> QueueIndex(r, q) == QueueIndex(c, q)
    ensures forall q :: q != cq.id && HasCommandQueue(c, q) ==> QueueOf(r, q) == QueueOf(c, q)
    ensures UniqueQueues(c) ==> UniqueQueues(r)
  {
    var qs := r.commandQueues;
    assert forall i :: 0 <= i < |qs| ==> qs[i].id == c.commandQueues[i].id;
    forall q | HasCommandQueue(c, q)
      ensures HasCommandQueue(r, q) && QueueIndex(r, q) == QueueIndex(c, q)
    {
      var i := QueueIndex(c, q);
      assert qs[i].id == q;
    }
  }

  // ---------------------------------------------------------------------
  // Properties
  // ---------------------------------------------------------------------

  /**
   * IL support is decided per device: a context holding an IL-capable
   * device next to one without IL supports IL, a context holding only the
   * latter does not.
   */
  lemma SupportsILScenario(ilDevice: Device, plainDevice: Device, c1: Context, c2: Context)
    requires |ilDevice.info.ilVersion| > 0 && plainDevice.info.ilVersion == ""
    requires c1.devices == [ilDevice, plainDevice] && c2.devices == [plainDevice]
    ensures SupportsIL(c1) && !SupportsIL(c2)
  {
    assert |c1.devices[0].info.ilVersion| > 0;
  }

  /**
   * The capability and device predicates read nothing but the device list,
   * so they agree on any two contexts with the same devices, whatever their
   * child lists, reference counts or properties.
   */
  lemma DevicePredicatesStable(c: Context, c': Context, d: Address, name: string)
    requires c'.devices == c.devices
    ensures HasDevice(c', d) == HasDevice(c, d)
    ensures SupportsImages(c') == SupportsImages(c)
    ensures SupportsIL(c') == SupportsIL(c)
    ensures SupportsBuiltInKernel(c', name) == SupportsBuiltInKernel(c, name)
  {
  }

  /** No live object sits at the null address, so every membership lookup of null fails. */
  lemma NullIsNeverMember(c: Context)
    ensures !HasDevice(c, Null) && !HasCommandQueue(c, Null)
    ensures !HasMemory(c, Null) && !HasSampler(c, Null) && !HasProgram(c, Null)
  {
  }

  /** Retaining a context and then dropping that reference gives the context back, not destroyed. */
  lemma RetainThenRemoveRef(c: Context)
    requires c.refCount > 0
    ensures var removal := RefCounting.RemoveRef(Retain(c).refCount);
      !removal.reachedZero && c.(refCount := removal.count) == c
  {
    RefCounting.RetainThenRelease(c.refCount);
  }
}

=== FILE: objects.dfy ===
/**
 * The entities of the object model: devices, command queues, the child
 * objects a context owns, contexts and platforms. Every object is identified
 * by its handle (its address); ownership is containment.
 */
module Objects {
  import opened Wrappers
  import opened ClTypes

  type DeviceId = Handle
  type ContextId = Handle
  type QueueId = Handle
  type MemoryId = Handle
  type SamplerId = Handle
  type ProgramId = Handle

  /** The capability part of what a device reports about itself; fixed for its lifetime. */
  datatype DeviceInfo = DeviceInfo(
    imageSupport: ClBool,
    ilVersion: string,
    builtInKernels: set<string>)

  datatype Device = Device(id: DeviceId, info: DeviceInfo)

  /** The device knows a built-in kernel of this name. */
  predicate DeviceSupportsBuiltInKernel(d: Device, name: string) {
    name in d.info.builtInKernels
  }

  /**
   * A command queue. `context` and `device` are non-owning references (the
   * handles of the queue's owner and target); `propArray` is the property
   * array it was created with, empty for the legacy constructor.
   */
  datatype CommandQueue = CommandQueue(
    id: QueueId,
    context: ContextId,
    device: DeviceId,
    propArray: seq<Uint64>,
    properties: Bitfield,
    size: Uint32,
    refCount: nat)

  datatype Memory = Memory(id: MemoryId, refCount: nat)
  datatype Sampler = Sampler(id: SamplerId, refCount: nat)
  datatype Program = Program(id: ProgramId, refCount: nat)

  /**
   * A context. `properties` and `devices` are fixed at construction; the four
   * lists hold the child objects the context owns.
   */
  datatype Context = Context(
    id: ContextId,
    properties: seq<int>,
    devices: seq<Device>,
    refCount: nat,
    commandQueues: seq<CommandQueue>,
    memories: seq<Memory>,
    samplers: seq<Sampler>,
    programs: seq<Program>)

  /** A platform with the contexts created against it. */
  datatype Platform = Platform(contexts: seq<Context>)

  /** Each device's default-command-queue slot; a device absent from the map has an empty slot. */
  type DefaultQueues = map<DeviceId, Option<QueueId>>

  function DefaultQueueOf(slots: DefaultQueues, d: DeviceId): Option<QueueId> {
    if d in slots then slots[d] else None
  }
}

=== FILE: refcount.dfy ===
/**
 * The reference count every API object carries. Atomicity is not modelled:
 * the count is a plain natural number, one step at a time.
 */
module RefCounting {

  /** The outcome of `removeRef`: the new count and whether it reached zero. */
  datatype Removal = Removal(count: nat, reachedZero: bool)

  /** `addRef`: one more reference. */
  function AddRef(count: nat): (r: nat)
    ensures r > count && r - count == 1
  {
    count + 1
  }

  /** `removeRef`: one reference fewer; the caller must hold a reference. */
  function RemoveRef(count: nat): (r: Removal)
    requires count > 0
    ensures r.count < count && count - r.count == 1
    ensures r.reachedZero <==> count == 1
    ensures r.reachedZero <==> r.count == 0
  {
    Removal(count - 1, count - 1 == 0)
  }

  /** A retain followed by a release restores the count and destroys nothing. */
  lemma RetainThenRelease(count: nat)
    requires count > 0
    ensures RemoveRef(AddRef(count)) == Removal(count, false)
  {
  }
}

=== FILE: registry.dfy ===
/**
 * The process-wide view: the platform list with every context, and each
 * device's default-queue slot. Handle validation scans this list; queue
 * creation and release act on one context of it.
 */
module Registry {
  import opened Wrappers
  import opened ClTypes
  import opened Objects
  import opened Search
  import opened Contexts
  import opened CommandQueues

  /** Some context of the platform owns a queue with identity `q`. */
  function PlatformHasCommandQueue(p: Platform, q: Address): (r: bool)
    ensures r <==> exists j :: 0 <= j < |p.contexts| && HasCommandQueue(p.contexts[j], q)
  {
    AnyOf(p.contexts, (c: Context) => HasCommandQueue(c, q))
  }

  /** `CommandQueue::IsValid`: some platform of the list owns a queue with identity `q`. */
  function IsValidCommandQueue(platforms: seq<Platform>, q: Address): (r: bool)
    ensures r <==> exists i :: 0 <= i < |platforms| && PlatformHasCommandQueue(platforms[i], q)
  {
    AnyOf(platforms, (p: Platform) => PlatformHasCommandQueue(p, q))
  }

  /** The null pointer is never a valid command queue, whatever the platforms hold. */
  lemma NullIsNeverValid(platforms: seq<Platform>)
    ensures !IsValidCommandQueue(platforms, Null)
  {
  }

  datatype State = State(platforms: seq<Platform>, defaults: DefaultQueues)

  /** `(i, j)` names context `j` of platform `i`. */
  predicate ValidLocation(st: State, i: nat, j: nat) {
    i < |st.platforms| && j < |st.platforms[i].contexts|
  }

  function ContextAt(st: State, i: nat, j: nat): Context
    requires ValidLocation(st, i, j)
  {
    st.platforms[i].contexts[j]
  }

  /** The context at `(i, j)` owns a queue with identity `q`. */
  predicate OwnsAt(st: State, i: nat, j: nat, q: Address) {
    ValidLocation(st, i, j) && HasCommandQueue(ContextAt(st, i, j), q)
  }

  /** A queue handle is valid exactly when some context at some location owns it. */
  lemma ValidIffOwned(st: State, q: Address)
    ensures (IsValidCommandQueue(st.platforms, q)) <==> (exists i: nat, j: nat :: OwnsAt(st, i, j, q))
  {
    if IsValidCommandQueue(st.platforms, q) {
      var i, j := OwnerOfValid(st, q);
    }
    if exists i: nat, j: nat :: OwnsAt(st, i, j, q) {
      var i: nat, j: nat :| OwnsAt(st, i, j, q);
      OwnedIsValid(st, i, j, q);
    }
  }

  lemma OwnerOfValid(st: State, q: Address) returns (i: nat, j: nat)
    requires IsValidCommandQueue(st.platforms, q)
    ensures OwnsAt(st, i, j, q)
  {
    i :| 0 <= i < |st.platforms| && PlatformHasCommandQueue(st.platforms[i], q);
    j :| 0 <= j < |st.platforms[i].contexts| && HasCommandQueue(st.platforms[i].contexts[j], q);
  }

  lemma OwnedIsValid(st: State, i: nat, j: nat, q: Address)
    requires OwnsAt(st, i, j, q)
    ensures IsValidCommandQueue(st.platforms, q)
  {
    assert HasCommandQueue(st.platforms[i].contexts[j], q);
    assert PlatformHasCommandQueue(st.platforms[i], q);
  }

  /** Both states have the same platforms, each with the same number of contexts. */
  predicate SameShape(st: State, st': State) {
    && |st'.platforms| == |st.platforms|
    && forall x :: 0 <= x < |st.platforms| ==> |st'.platforms[x].contexts| == |st.platforms[x].contexts|
  }

  /** Every context other than the one at `(i, j)` is the same in both states. */
  ghost predicate OthersUnchanged(st: State, st': State, i: nat, j: nat)
    requires SameShape(st, st')
  {
    forall x: nat, y: nat :: ValidLocation(st, x, y) && (x, y) != (i, j) ==> ContextAt(st', x, y) == ContextAt(st, x, y)
  }

  /** The state with the context at `(i, j)` replaced by `c`. */
  function WithContext(st: State, i: nat, j: nat, c: Context): (r: State)
    requires ValidLocation(st, i, j)
    ensures SameShape(st, r)
    ensures ContextAt(r, i, j) == c
    ensures OthersUnchanged(st, r, i, j)
    ensures r.defaults == st.defaults
  {
    var p := st.platforms[i];
    st.(platforms := st.platforms[i := p.(contexts := p.contexts[j := c])])
  }

  // ---------------------------------------------------------------------
  // Invariants
  // ---------------------------------------------------------------------

  /** The context at `(i, j)` owns `q` once, and no other context owns it. */
  ghost predicate SoleOwner(st: State, i: nat, j: nat, q: Address)
    requires ValidLocation(st, i, j)
  {
    && UniqueQueues(ContextAt(st, i, j))
    && forall i': nat, j': nat :: OwnsAt(st, i', j', q) ==> i' == i && j' == j
  }

  /** Handles are addresses: a queue lives in exactly one place. */
  ghost predicate UniqueIdentities(st: State) {
    forall i: nat, j: nat, q :: OwnsAt(st, i, j, q) ==> SoleOwner(st, i, j, q)
  }

  /** Some live queue with identity `q` targets device `d`. */
  ghost predicate LivesOn(st: State, q: QueueId, d: DeviceId) {
    exists i: nat, j: nat :: OwnsAt(st, i, j, q) && QueueOf(ContextAt(st, i, j), q).device == d
  }

  /** Every device's default-queue slot is empty or names a live queue on that device. */
  ghost predicate DefaultsLive(st: State) {
    forall d :: DefaultQueueOf(st.defaults, d).Some? ==> LivesOn(st, DefaultQueueOf(st.defaults, d).value, d)
  }

  /**
   * Every live queue holds at least one reference and records as its
   * context the context that owns it, so `release` destroys it in the list
   * it sits in.
   */
  ghost predicate QueuesConsistent(st: State) {
    forall x: nat, y: nat, q :: OwnsAt(st, x, y, q) ==>
      && QueueOf(ContextAt(st, x, y), q).refCount >= 1
      && QueueOf(ContextAt(st, x, y), q).context == ContextAt(st, x, y).id
  }

  /** Contexts are objects too: no two locations hold contexts with the same identity. */
  ghost predicate DistinctContexts(st: State) {
    forall x: nat, y: nat, x': nat, y': nat ::
      ValidLocation(st, x, y) && ValidLocation(st, x', y') && ContextAt(st, x, y).id == ContextAt(st, x', y').id
      ==> x == x' && y == y'
  }

  ghost predicate Invariant(st: State) {
    UniqueIdentities(st) && DefaultsLive(st) && QueuesConsistent(st) && DistinctContexts(st)
  }

  /**
   * Under the invariant every owned queue can be released: it holds a
   * reference, and the context it records is the one whose list holds it,
   * and no context at any other location.
   */
  lemma InvariantEnablesRelease(st: State, i: nat, j: nat, q: QueueId)
    requires Invariant(st) && OwnsAt(st, i, j, q)
    ensures QueueOf(ContextAt(st, i, j), q).refCount > 0
    ensures QueueOf(ContextAt(st, i, j), q).context == ContextAt(st, i, j).id
    ensures forall x: nat, y: nat :: ValidLocation(st, x, y) && ContextAt(st, x, y).id == QueueOf(ContextAt(st, i, j), q).context
              ==> x == i && y == j
  {
  }

  /**
   * A context's identity is the only thing the distinctness invariant reads,
   * so a step that keeps the shape, changes only the context at `(i, j)` and
   * keeps that context's identity keeps contexts distinct.
   */
  lemma KeepIdsKeepsContextsDistinct(st: State, st': State, i: nat, j: nat)
    requires DistinctContexts(st) && ValidLocation(st, i, j)
    requires SameShape(st, st') && OthersUnchanged(st, st', i, j)
    requires ContextAt(st', i, j).id == ContextAt(st, i, j).id
    ensures DistinctContexts(st')
  {
  }

  /** An address no live queue has is named by no default-queue slot either, once the slots are live. */
  lemma FreshAddressIsNoDefault(st: State, id: QueueId)
    requires DefaultsLive(st) && !IsValidCommandQueue(st.platforms, id)
    ensures forall d :: DefaultQueueOf(st.defaults, d) != Some(id)
  {
  }

  // ---------------------------------------------------------------------
  // Queue creation and release
  // ---------------------------------------------------------------------

  /** The state after a queue-creation call and the status it returns. */
  datatype Creation = Creation(state: State, status: Status)

  /**
   * Creating a queue with a property array in the context at `(i, j)`: the
   * constructor runs (registering the queue as its device's default when
   * asked), then the queue joins the context's list if the backend succeeded
   * and is destroyed otherwise. `id` is the new object's address, so no live
   * queue has it and no default-queue slot names it.
   */
  function CreateCommandQueueWithProperties(st: State, i: nat, j: nat, device: DeviceId, id: QueueId,
                                            propArray: seq<Uint64>, properties: Bitfield, size: Uint32,
                                            backendStatus: Status): (r: Creation)
    requires ValidLocation(st, i, j)
    requires !IsValidCommandQueue(st.platforms, id)
    requires forall d :: DefaultQueueOf(st.defaults, d) != Some(id)
    ensures r.status == backendStatus
    ensures r.status == ClSuccess ==> IsValidCommandQueue(r.state.platforms, id)
    ensures r.status == ClSuccess ==> OwnsAt(r.state, i, j, id)
                                      && QueueOf(ContextAt(r.state, i, j), id)
                                         == ConstructWithProperties(st.defaults, ContextAt(st, i, j).id, device, id,
                                                                    propArray, properties, size, backendStatus).queue
    ensures r.status == ClSuccess ==>
              forall x: nat, y: nat, q2 :: OwnsAt(r.state, x, y, q2) <==> OwnsAt(st, x, y, q2) || (x == i && y == j && q2 == id)
    ensures r.status == ClSuccess ==>
              forall x: nat, y: nat, q2 :: OwnsAt(st, x, y, q2) ==>
                OwnsAt(r.state, x, y, q2) && QueueOf(ContextAt(r.state, x, y), q2) == QueueOf(ContextAt(st, x, y), q2)
    ensures r.status == ClSuccess ==> SameShape(st, r.state) && OthersUnchanged(st, r.state, i, j)
    ensures r.status != ClSuccess ==> r.state.platforms == st.platforms
    ensures r.status != ClSuccess ==> forall d :: DefaultQueueOf(r.state.defaults, d) != Some(id)
    ensures IsSet(properties, QueueOnDeviceDefault) && r.status == ClSuccess ==>
              DefaultQueueOf(r.state.defaults, device) == Some(id)
    ensures IsSet(properties, QueueOnDeviceDefault) && r.status != ClSuccess ==>
              DefaultQueueOf(r.state.defaults, device) == None
    ensures !IsSet(properties, QueueOnDeviceDefault) && r.status == ClSuccess ==> r.state.defaults == st.defaults
    ensures forall d :: d != device ==> DefaultQueueOf(r.state.defaults, d) == DefaultQueueOf(st.defaults, d)
  {
    var c := ContextAt(st, i, j);
    var built := ConstructWithProperties(st.defaults, c.id, device, id, propArray, properties, size, backendStatus);
    if built.status == ClSuccess then
      var inserted := WithContext(st, i, j, InsertCommandQueue(c, built.queue));
      InsertedIsValid(st, i, j, built.queue, inserted);
      InsertFrame(st, i, j, built.queue, inserted.(defaults := built.defaults));
      Creation(inserted.(defaults := built.defaults), ClSuccess)
    else
      Creation(st.(defaults := Destruct(built.defaults, built.queue)), built.status)
  }

  /**
   * Creating a queue with the legacy constructor in the context at `(i, j)`:
   * the queue joins the context's list if the backend succeeded and is
   * destroyed otherwise; no default-queue slot changes, whatever the outcome.
   */
  function CreateCommandQueue(st: State, i: nat, j: nat, device: DeviceId, id: QueueId,
                              properties: Bitfield, backendStatus: Status): (r: Creation)
    requires ValidLocation(st, i, j)
    requires !IsValidCommandQueue(st.platforms, id)
    requires forall d :: DefaultQueueOf(st.defaults, d) != Some(id)
    ensures r.status == backendStatus
    ensures r.state.defaults == st.defaults
    ensures r.status == ClSuccess ==> IsValidCommandQueue(r.state.platforms, id)
    ensures r.status == ClSuccess ==> OwnsAt(r.state, i, j, id)
                                      && QueueOf(ContextAt(r.state, i, j), id)
                                         == ConstructLegacy(st.defaults, ContextAt(st, i, j).id, device, id,
                                                            properties, backendStatus).queue
    ensures r.status == ClSuccess ==>
              forall x: nat, y: nat, q2 :: OwnsAt(r.state, x, y, q2) <==> OwnsAt(st, x, y, q2) || (x == i && y == j && q2 == id)
    ensures r.status == ClSuccess ==>
              forall x: nat, y: nat, q2 :: OwnsAt(st, x, y, q2) ==>
                OwnsAt(r.state, x, y, q2) && QueueOf(ContextAt(r.state, x, y), q2) == QueueOf(ContextAt(st, x, y), q2)
    ensures r.status == ClSuccess ==> SameShape(st, r.state) && OthersUnchanged(st, r.state, i, j)
    ensures r.status != ClSuccess ==> r.state == st
  {
    var c := ContextAt(st, i, j);
    var built := ConstructLegacy(st.defaults, c.id, device, id, properties, backendStatus);
    if built.status == ClSuccess then
      var inserted := WithContext(st, i, j, InsertCommandQueue(c, built.queue));
      InsertedIsValid(st, i, j, built.queue, inserted);
      InsertFrame(st, i, j, built.queue, inserted);
      Creation(inserted, ClSuccess)
    else
      Creation(st.(defaults := Destruct(built.defaults, built.queue)), built.status)
  }

  /** The state after `release` and whether the queue was destroyed. */
  datatype Released = Released(state: State, released: bool)

  /** `release` of the queue `q` owned by the context at `(i, j)`. */
  function ReleaseCommandQueue(st: State, i: nat, j: nat, q: QueueId): (r: Released)
    requires OwnsAt(st, i, j, q)
    requires QueueOf(ContextAt(st, i, j), q).refCount > 0
    ensures r.released <==> QueueOf(ContextAt(st, i, j), q).refCount == 1
    ensures r.released && SoleOwner(st, i, j, q) ==> !IsValidCommandQueue(r.state.platforms, q)
    ensures !r.released ==> IsValidCommandQueue(r.state.platforms, q)
    ensures r.released ==> r.state.defaults == Destruct(st.defaults, QueueOf(ContextAt(st, i, j), q))
    ensures !r.released ==> r.state.defaults == st.defaults
    ensures SameShape(st, r.state) && OthersUnchanged(st, r.state, i, j)
    ensures ContextAt(r.state, i, j) == Release(ContextAt(st, i, j), q, st.defaults).context
    ensures !r.released ==> OwnsAt(r.state, i, j, q)
                            && QueueOf(ContextAt(r.state, i, j), q).refCount == QueueOf(ContextAt(st, i, j), q).refCount - 1
  {
    var rep := Release(ContextAt(st, i, j), q, st.defaults);
    var st' := WithContext(st, i, j, rep.context).(defaults := rep.defaults);
    if rep.released then
      DestroyedIsInvalid(st, i, j, q, st');
      Released(st', true)
    else
      OwnedIsValid(st', i, j, q);
      Released(st', false)
  }

  /** Once its sole owner has erased it, a queue's handle is no longer valid. */
  lemma DestroyedIsInvalid(st: State, i: nat, j: nat, q: QueueId, st': State)
    requires OwnsAt(st, i, j, q)
    requires st' == WithContext(st, i, j, DestroyCommandQueue(ContextAt(st, i, j), q)).(defaults := st'.defaults)
    ensures SoleOwner(st, i, j, q) ==> !IsValidCommandQueue(st'.platforms, q)
  {
    if SoleOwner(st, i, j, q) {
      forall x: nat, y: nat | OwnsAt(st', x, y, q) ensures false {
        assert (x, y) != (i, j);
        assert OwnsAt(st, x, y, q);
      }
      ValidIffOwned(st', q);
    }
  }

  /** A queue with a fresh identity, once inserted, is valid and found as itself. */
  lemma InsertedIsValid(st: State, i: nat, j: nat, cq: CommandQueue, st': State)
    requires ValidLocation(st, i, j)
    requires !IsValidCommandQueue(st.platforms, cq.id)
    requires st' == WithContext(st, i, j, InsertCommandQueue(ContextAt(st, i, j), cq))
    ensures OwnsAt(st', i, j, cq.id) && QueueOf(ContextAt(st', i, j), cq.id) == cq
    ensures IsValidCommandQueue(st'.platforms, cq.id)
  {
    var newId: Address := cq.id;
    if HasCommandQueue(ContextAt(st, i, j), newId) {
      OwnedIsValid(st, i, j, newId);
    }
    OwnedIsValid(st', i, j, cq.id);
  }

  // ---------------------------------------------------------------------
  // The invariants are preserved
  // ---------------------------------------------------------------------

  lemma UniqueContextQueues(st: State, i: nat, j: nat)
    requires UniqueIdentities(st) && ValidLocation(st, i, j)
    ensures UniqueQueues(ContextAt(st, i, j))
  {
    var c := ContextAt(st, i, j);
    if |c.commandQueues| > 0 {
      assert OwnsAt(st, i, j, c.commandQueues[0].id);
    }
  }

  /** After `release`, every ownership was already there, with the same target device. */
  lemma ReleaseShrinks(st: State, i: nat, j: nat, q: QueueId)
    requires UniqueIdentities(st)
    requires OwnsAt(st, i, j, q) && QueueOf(ContextAt(st, i, j), q).refCount > 0
    ensures var st' := ReleaseCommandQueue(st, i, j, q).state;
      forall x: nat, y: nat, q2 :: OwnsAt(st', x, y, q2) ==>
        && OwnsAt(st, x, y, q2)
        && QueueOf(ContextAt(st', x, y), q2).device == QueueOf(ContextAt(st, x, y), q2).device
  {
    var c := ContextAt(st, i, j);
    var rep := Release(c, q, st.defaults);
    var st' := ReleaseCommandQueue(st, i, j, q).state;
    assert st' == WithContext(st, i, j, rep.context).(defaults := rep.defaults);
    UniqueContextQueues(st, i, j);
    forall x: nat, y: nat, q2 | OwnsAt(st', x, y, q2)
      ensures OwnsAt(st, x, y, q2)
      ensures QueueOf(ContextAt(st', x, y), q2).device == QueueOf(ContextAt(st, x, y), q2).device
    {
      if (x, y) != (i, j) {
        assert ContextAt(st', x, y) == ContextAt(st, x, y);
      } else if q2 == q {
        assert !rep.released;
      }
    }
  }

  lemma ReleaseKeepsIdentitiesUnique(st: State, i: nat, j: nat, q: QueueId)
    requires UniqueIdentities(st)
    requires OwnsAt(st, i, j, q) && QueueOf(ContextAt(st, i, j), q).refCount > 0
    ensures UniqueIdentities(ReleaseCommandQueue(st, i, j, q).state)
  {
    var c := ContextAt(st, i, j);
    var rep := Release(c, q, st.defaults);
    var st' := ReleaseCommandQueue(st, i, j, q).state;
    assert st' == WithContext(st, i, j, rep.context).(defaults := rep.defaults);
    UniqueContextQueues(st, i, j);
    ReleaseShrinks(st, i, j, q);
    forall x: nat, y: nat, q2 | OwnsAt(st', x, y, q2)
      ensures SoleOwner(st', x, y, q2)
    {
      assert SoleOwner(st, x, y, q2);
      if (x, y) != (i, j) {
        assert ContextAt(st', x, y) == ContextAt(st, x, y);
      }
      forall x2: nat, y2: nat | OwnsAt(st', x2, y2, q2) ensures x2 == x && y2 == y {
        assert OwnsAt(st, x2, y2, q2);
      }
    }
  }

  lemma ReleaseKeepsDefaultsLive(st: State, i: nat, j: nat, q: QueueId)
    requires Invariant(st)
    requires OwnsAt(st, i, j, q) && QueueOf(ContextAt(st, i, j), q).refCount > 0
    ensures DefaultsLive(ReleaseCommandQueue(st, i, j, q).state)
  {
    var c := ContextAt(st, i, j);
    var rep := Release(c, q, st.defaults);
    var st' := ReleaseCommandQueue(st, i, j, q).state;
    assert st' == WithContext(st, i, j, rep.context).(defaults := rep.defaults);
    assert SoleOwner(st, i, j, q);
    UniqueContextQueues(st, i, j);
    forall d | DefaultQueueOf(st'.defaults, d).Some?
      ensures LivesOn(st', DefaultQueueOf(st'.defaults, d).value, d)
    {
      var q2 := DefaultQueueOf(st'.defaults, d).value;
      assert DefaultQueueOf(st.defaults, d) == Some(q2);
      assert LivesOn(st, q2, d);
      var x: nat, y: nat :| OwnsAt(st, x, y, q2) && QueueOf(ContextAt(st, x, y), q2).device == d;
      if rep.released && q2 == q {
        assert false;
      }
      if (x, y) == (i, j) {
        assert HasCommandQueue(rep.context, q2);
        assert QueueOf(rep.context, q2).device == d;
      } else {
        assert ContextAt(st', x, y) == ContextAt(st, x, y);
      }
      assert OwnsAt(st', x, y, q2) && QueueOf(ContextAt(st', x, y), q2).device == d;
    }
  }

  /**
   * Releasing a queue keeps identities unique, leaves no device's
   * default-queue slot naming a destroyed queue, and leaves every live queue
   * with a reference and its owner recorded.
   */
  lemma ReleasePreservesInvariant(st: State, i: nat, j: nat, q: QueueId)
    requires Invariant(st)
    requires OwnsAt(st, i, j, q) && QueueOf(ContextAt(st, i, j), q).refCount > 0
    ensures Invariant(ReleaseCommandQueue(st, i, j, q).state)
  {
    ReleaseKeepsIdentitiesUnique(st, i, j, q);
    ReleaseKeepsDefaultsLive(st, i, j, q);
    ReleaseKeepsQueuesConsistent(st, i, j, q);
    var rep := Release(ContextAt(st, i, j), q, st.defaults);
    assert rep.context.id == ContextAt(st, i, j).id;
    KeepIdsKeepsContextsDistinct(st, ReleaseCommandQueue(st, i, j, q).state, i, j);
  }

  /** After `release` every live queue still holds a reference and records its owner. */
  lemma ReleaseKeepsQueuesConsistent(st: State, i: nat, j: nat, q: QueueId)
    requires UniqueIdentities(st) && QueuesConsistent(st)
    requires OwnsAt(st, i, j, q) && QueueOf(ContextAt(st, i, j), q).refCount > 0
    ensures QueuesConsistent(ReleaseCommandQueue(st, i, j, q).state)
  {
    var c := ContextAt(st, i, j);
    var rep := Release(c, q, st.defaults);
    var st' := ReleaseCommandQueue(st, i, j, q).state;
    assert ContextAt(st', i, j) == rep.context;
    assert rep.context.id == c.id;
    UniqueContextQueues(st, i, j);
    forall x: nat, y: nat, q2 | OwnsAt(st', x, y, q2)
      ensures QueueOf(ContextAt(st', x, y), q2).refCount >= 1
      ensures QueueOf(ContextAt(st', x, y), q2).context == ContextAt(st', x, y).id
    {
      if (x, y) != (i, j) {
        assert ContextAt(st', x, y) == ContextAt(st, x, y);
        assert OwnsAt(st, x, y, q2);
      } else if q2 != q {
        assert OwnsAt(st, i, j, q2);
      } else {
        assert !rep.released;
        assert OwnsAt(st, i, j, q);
      }
    }
  }

  /** Inserting a queue that holds a reference and records its new owner keeps queues consistent. */
  lemma InsertKeepsQueuesConsistent(st: State, i: nat, j: nat, cq: CommandQueue, st': State)
    requires QueuesConsistent(st)
    requires ValidLocation(st, i, j)
    requires !IsValidCommandQueue(st.platforms, cq.id)
    requires cq.refCount >= 1 && cq.context == ContextAt(st, i, j).id
    requires st'.platforms == WithContext(st, i, j, InsertCommandQueue(ContextAt(st, i, j), cq)).platforms
    ensures QueuesConsistent(st')
  {
    InsertFrame(st, i, j, cq, st');
    assert ContextAt(st', i, j).id == ContextAt(st, i, j).id;
    forall x: nat, y: nat, q2 | OwnsAt(st', x, y, q2)
      ensures QueueOf(ContextAt(st', x, y), q2).refCount >= 1
      ensures QueueOf(ContextAt(st', x, y), q2).context == ContextAt(st', x, y).id
    {
      if (x, y) != (i, j) {
        assert ContextAt(st', x, y) == ContextAt(st, x, y);
      }
      if !(x == i && y == j && q2 == cq.id) {
        assert OwnsAt(st, x, y, q2);
      }
    }
  }

  /**
   * Inserting a queue with a fresh identity adds exactly that ownership and
   * keeps every existing queue's record.
   */
  lemma InsertFrame(st: State, i: nat, j: nat, cq: CommandQueue, st': State)
    requires ValidLocation(st, i, j)
    requires !IsValidCommandQueue(st.platforms, cq.id)
    requires st'.platforms == WithContext(st, i, j, InsertCommandQueue(ContextAt(st, i, j), cq)).platforms
    ensures forall x: nat, y: nat, q2 :: OwnsAt(st', x, y, q2) <==> OwnsAt(st, x, y, q2) || (x == i && y == j && q2 == cq.id)
    ensures forall x: nat, y: nat, q2 :: OwnsAt(st, x, y, q2) ==> QueueOf(ContextAt(st', x, y), q2) == QueueOf(ContextAt(st, x, y), q2)
    ensures OwnsAt(st', i, j, cq.id) && QueueOf(ContextAt(st', i, j), cq.id) == cq
    ensures !HasCommandQueue(ContextAt(st, i, j), cq.id)
  {
    var c := ContextAt(st, i, j);
    var c' := InsertCommandQueue(c, cq);
    assert ContextAt(st', i, j) == c';
    var newId: Address := cq.id;
    if HasCommandQueue(c, newId) {
      OwnedIsValid(st, i, j, newId);
    }
    forall x: nat, y: nat, q2
      ensures OwnsAt(st', x, y, q2) <==> OwnsAt(st, x, y, q2) || (x == i && y == j && q2 == cq.id)
      ensures OwnsAt(st, x, y, q2) ==> QueueOf(ContextAt(st', x, y), q2) == QueueOf(ContextAt(st, x, y), q2)
    {
      if ValidLocation(st, x, y) && (x, y) != (i, j) {
        assert ContextAt(st', x, y) == ContextAt(st, x, y);
      }
    }
  }

  /** Inserting a queue with a fresh identity keeps identities unique. */
  lemma InsertKeepsIdentitiesUnique(st: State, i: nat, j: nat, cq: CommandQueue, st': State)
    requires UniqueIdentities(st)
    requires ValidLocation(st, i, j)
    requires !IsValidCommandQueue(st.platforms, cq.id)
    requires st'.platforms == WithContext(st, i, j, InsertCommandQueue(ContextAt(st, i, j), cq)).platforms
    ensures UniqueIdentities(st')
  {
    InsertFrame(st, i, j, cq, st');
    UniqueContextQueues(st, i, j);
    forall x: nat, y: nat, q2 | OwnsAt(st', x, y, q2)
      ensures SoleOwner(st', x, y, q2)
    {
      if (x, y) != (i, j) {
        assert ContextAt(st', x, y) == ContextAt(st, x, y);
      }
      if q2 != cq.id {
        assert SoleOwner(st, x, y, q2);
      }
    }
  }

  /** Creating a queue with a property array keeps the invariants, whether or not the backend succeeds. */
  lemma CreateWithPropertiesPreservesInvariant(st: State, i: nat, j: nat, device: DeviceId, id: QueueId,
                                               propArray: seq<Uint64>, properties: Bitfield, size: Uint32,
                                               backendStatus: Status)
    requires Invariant(st)
    requires ValidLocation(st, i, j)
    requires !IsValidCommandQueue(st.platforms, id)
    ensures Invariant(CreateCommandQueueWithProperties(st, i, j, device, id, propArray, properties, size, backendStatus).state)
  {
    var c := ContextAt(st, i, j);
    var built := ConstructWithProperties(st.defaults, c.id, device, id, propArray, properties, size, backendStatus);
    var st' := CreateCommandQueueWithProperties(st, i, j, device, id, propArray, properties, size, backendStatus).state;
    ValidIffOwned(st, id);
    assert DefaultQueueOf(st.defaults, device) != Some(id);
    if backendStatus == ClSuccess {
      InsertFrame(st, i, j, built.queue, st');
      InsertKeepsIdentitiesUnique(st, i, j, built.queue, st');
      InsertKeepsQueuesConsistent(st, i, j, built.queue, st');
      KeepIdsKeepsContextsDistinct(st, st', i, j);
      forall d | DefaultQueueOf(st'.defaults, d).Some?
        ensures LivesOn(st', DefaultQueueOf(st'.defaults, d).value, d)
      {
        var q2 := DefaultQueueOf(st'.defaults, d).value;
        if q2 == id && d == device {
          assert OwnsAt(st', i, j, id) && QueueOf(ContextAt(st', i, j), id).device == d;
        } else {
          assert DefaultQueueOf(st.defaults, d) == Some(q2);
          var x: nat, y: nat :| OwnsAt(st, x, y, q2) && QueueOf(ContextAt(st, x, y), q2).device == d;
          assert OwnsAt(st', x, y, q2) && QueueOf(ContextAt(st', x, y), q2).device == d;
        }
      }
    } else {
      assert st'.platforms == st.platforms;
      assert forall x: nat, y: nat, q2 :: OwnsAt(st', x, y, q2) == OwnsAt(st, x, y, q2);
      forall x: nat, y: nat, q2 | OwnsAt(st', x, y, q2)
        ensures SoleOwner(st', x, y, q2)
      {
        assert SoleOwner(st, x, y, q2);
      }
      assert QueuesConsistent(st');
      KeepIdsKeepsContextsDistinct(st, st', i, j);
      forall d | DefaultQueueOf(st'.defaults, d).Some?
        ensures LivesOn(st', DefaultQueueOf(st'.defaults, d).value, d)
      {
        var q2 := DefaultQueueOf(st'.defaults, d).value;
        assert DefaultQueueOf(st.defaults, d) == Some(q2);
        var x: nat, y: nat :| OwnsAt(st, x, y, q2) && QueueOf(ContextAt(st, x, y), q2).device == d;
        assert OwnsAt(st', x, y, q2) && QueueOf(ContextAt(st', x, y), q2).device == d;
      }
    }
  }

  /** Creating a queue with the legacy constructor keeps the invariants. */
  lemma CreatePreservesInvariant(st: State, i: nat, j: nat, device: DeviceId, id: QueueId,
                                 properties: Bitfield, backendStatus: Status)
    requires Invariant(st)
    requires ValidLocation(st, i, j)
    requires !IsValidCommandQueue(st.platforms, id)
    ensures Invariant(CreateCommandQueue(st, i, j, device, id, properties, backendStatus).state)
  {
    var c := ContextAt(st, i, j);
    var built := ConstructLegacy(st.defaults, c.id, device, id, properties, backendStatus);
    var st' := CreateCommandQueue(st, i, j, device, id, properties, backendStatus).state;
    if backendStatus == ClSuccess {
      InsertFrame(st, i, j, built.queue, st');
      InsertKeepsIdentitiesUnique(st, i, j, built.queue, st');
      InsertKeepsQueuesConsistent(st, i, j, built.queue, st');
      KeepIdsKeepsContextsDistinct(st, st', i, j);
      forall d | DefaultQueueOf(st'.defaults, d).Some?
        ensures LivesOn(st', DefaultQueueOf(st'.defaults, d).value, d)
      {
        var q2 := DefaultQueueOf(st'.defaults, d).value;
        var x: nat, y: nat :| OwnsAt(st, x, y, q2) && QueueOf(ContextAt(st, x, y), q2).device == d;
        assert OwnsAt(st', x, y, q2) && QueueOf(ContextAt(st', x, y), q2).device == d;
      }
    }
  }

  // ---------------------------------------------------------------------
  // Consequences
  // ---------------------------------------------------------------------

  /**
   * The with-properties constructor registers the new queue as the default
   * whatever status the backend wrote, since it never checks that status;
   * destroying the failed queue then empties the slot. So a failed attempt
   * to create a default queue leaves the device with no default queue, even
   * if it had one before.
   */
  lemma FailedDefaultCreationEmptiesSlot(st: State, i: nat, j: nat, device: DeviceId, id: QueueId,
                                         propArray: seq<Uint64>, properties: Bitfield, size: Uint32,
                                         backendStatus: Status, previous: QueueId)
    requires ValidLocation(st, i, j)
    requires !IsValidCommandQueue(st.platforms, id)
    requires forall d :: DefaultQueueOf(st.defaults, d) != Some(id)
    requires IsSet(properties, QueueOnDeviceDefault) && backendStatus != ClSuccess
    requires DefaultQueueOf(st.defaults, device) == Some(previous)
    ensures var r := CreateCommandQueueWithProperties(st, i, j, device, id, propArray, properties, size, backendStatus);
      && r.state.platforms == st.platforms
      && DefaultQueueOf(r.state.defaults, device) == None
  {
  }

  /**
   * Releasing the last reference to a queue its context alone owns makes
   * its handle invalid and leaves no slot naming it; any other release
   * leaves it valid.
   */
  lemma ReleaseLastReferenceInvalidates(st: State, i: nat, j: nat, q: QueueId)
    requires Invariant(st)
    requires OwnsAt(st, i, j, q) && QueueOf(ContextAt(st, i, j), q).refCount > 0
    ensures var r := ReleaseCommandQueue(st, i, j, q);
      && (r.released <==> QueueOf(ContextAt(st, i, j), q).refCount == 1)
      && (r.released ==> !IsValidCommandQueue(r.state.platforms, q))
      && (r.released ==> forall d :: DefaultQueueOf(r.state.defaults, d) != Some(q))
      && (!r.released ==> IsValidCommandQueue(r.state.platforms, q))
  {
    var r := ReleaseCommandQueue(st, i, j, q);
    assert SoleOwner(st, i, j, q);
    if r.released {
      ReleasePreservesInvariant(st, i, j, q);
      forall d ensures DefaultQueueOf(r.state.defaults, d) != Some(q) {
        if DefaultQueueOf(r.state.defaults, d) == Some(q) {
          assert false;
        }
      }
    }
  }
}

=== FILE: search.dfy ===
/**
 * Linear searches over sequences: the `std::find_if` idiom and the
 * `find_if(...) != end` membership test built on it.
 */
module Search {

  /**
   * Position of the first element satisfying `p`, or `|s|` (the end
   * iterator) when there is none.
   */
  function FindIf<T>(s: seq<T>, p: T -> bool): (i: nat)
    ensures i <= |s|
    ensures forall j :: 0 <= j < i ==> !p(s[j])
    ensures i < |s| ==> p(s[i])
  {
    if |s| == 0 then 0
    else if p(s[0]) then 0
    else
      var k := FindIf(s[1..], p);
      assert forall j :: 1 <= j < 1 + k ==> s[j] == s[1..][j - 1];
      1 + k
  }

  /** `find_if(s, p) != end`: some element satisfies `p`. */
  function AnyOf<T>(s: seq<T>, p: T -> bool): (r: bool)
    ensures r <==> exists i :: 0 <= i < |s| && p(s[i])
  {
    FindIf(s, p) != |s|
  }

  /** The sequence without its element at position `k` (`list::erase`). */
  function EraseAt<T>(s: seq<T>, k: nat): (r: seq<T>)
    requires k < |s|
    ensures |r| == |s| - 1
    ensures forall j :: 0 <= j < k ==> r[j] == s[j]
    ensures forall j :: k <= j < |r| ==> r[j] == s[j + 1]
    ensures multiset(r) + multiset{s[k]} == multiset(s)
  {
    assert s == s[..k] + [s[k]] + s[k + 1..];
    s[..k] + s[k + 1..]
  }
}

=== FILE: wrappers.dfy ===
/** Optional values. `None` plays the part of a null pointer throughout the model. */
module Wrappers {

  datatype Option<+T> = None | Some(value: T)
}
